=== FILE: README.md ===
# arguments — a verified model of a small command-line parser

The library turns a declared set of options and the command-line tokens
into a map from option name to typed value, or an error. This project is a
functional Dafny model of its four parts:

- **Scanner** (`arguments.go`). A single cursor walks the tokens. Each token is one of:
  - a long option `--name`, retried as `--no-name` → `name`;
  - a shortcut `-k`;
  - a cluster of flag shortcuts `-abc`;
  - the first positional token, which hands every remaining token to the tail option.

  Any error ends the parse. A requiredness check runs after a scan that had no error.
- **Per-kind consumption** (`argument.go`). For each kind: how many tokens after the option's own token it takes, and what value it makes.
- **Getters** (`values.go`). Six lookups over a tagged union `VStr | VStrs | VInt | VFloat | VBool`. Each returns the value or the default, whether the name was found, and a type-mismatch error.
- **Schema decoder** (`create.go`). Validates an untyped nested map, such as a decoded configuration document, into declarations.

Modules follow the Go files:
- `Schema`: argument.dfy.
- `Scanner`: arguments.dfy.
- `Accessors`: values.dfy.
- `Decoder`: create.dfy.

Supporting modules:
- `Results`: Option and Result.
- `Text`: `strings.HasPrefix`, `strconv.Atoi`/`Itoa`, and the float type.
- `Untyped`: Go's `interface{}` tree.
- `Properties`: round trips across the modules.
- `Scenarios`: the repository's tests, stated as lemmas.

The central property is `Properties.ParseRendered`. Write any sequence of
option settings out as `--name value` tokens. Parsing them gives back exactly
those settings, and a later setting of a name overrides an earlier one. The
only failure is a missing required option. The side conditions on the
settings are:
- each names a declared option that is not the tail option, with a value of
  that option's kind;
- an integer lies within the 64-bit `int` range;
- a float, written out by the given formatter, reads back as the same bit
  pattern through the given float parser (asked only of the floats in the
  settings, so a parser with a single NaN pattern still qualifies when no
  other NaN is rendered);
- elements of a list must not start with `--`;
- a true flag must not be named `no-…`;
- a false flag needs `no-name` to be undeclared.

Go's map iteration order decides which entry `findByShortcut`, `findByType`,
`checkRequired` and `Create` meet first when several qualify. The model
makes these lookups ghost choices. Their contracts promise *some* qualifying
entry and never say which one. So `Scan`, `Parse` and `Create` are ghost
functions.

Points of the code the model follows as written:
- `checkRequired` (arguments.go:176-189) tests `Required` on options of every kind, flags included.
- The `--no-` retry (arguments.go:68-70) is not limited to flags: `--no-x` reaches any option named `x` when no option is named `no-x`.
- `Argument` has no `Default`/`HasDefault` fields in `argument.go`, yet `create.go` assigns them. The model's record has `defaultValue: Option<Untyped>`, and `HasDefault` is `defaultValue.Some?`.

## Model

| member | source | states |
|---|---|---|
| Text.ParseDecimal | argument.go:57-64 | Atoi succeeds exactly on an optional sign followed by at least one digit whose value fits a 64-bit `int`; the empty token fails |
| Text.ParseFormatDecimal | argument.go:57-64 | every 64-bit `int` written in decimal reads back as itself |
| Schema.ListRun | argument.go:37-55 | the list a `Strings` option takes is a contiguous slice of the following tokens, none starting with `--`, and it stops only at the end or at a `--` token (short `-x` tokens are swallowed) |
| Schema.ListRunUnique | argument.go:37-55 | a run with those three properties is the only one: the list is the maximal such run |
| Schema.ParseValue | argument.go:28-84 | String takes exactly one following token verbatim; Strings takes the maximal non-`--` run, possibly empty; Integer and Float take one token, a failed parse of it being an invalid-integer or invalid-float error that quotes it; Flag takes none and is false iff its own token starts with `--no-`; Tail is an unknown-type error; on success the consumed tokens lie within the input |
| Schema.MissingOperandIsError | argument.go:33-73 | the model reports a missing operand exactly where the Go code would read past the end of the tokens |
| Scanner.FindByKey | arguments.go:131-144 | the lookup by name finds an entry iff the name is declared, and returns that name |
| Scanner.FindWhere | arguments.go:146-174 | the linear search both lookups share: nothing iff no declared option passes the test, otherwise some option that passes it |
| Scanner.FindByShortcut | arguments.go:161-174 | finds nothing iff no declared option has the shortcut, otherwise some option that has it |
| Scanner.FindByType | arguments.go:146-159 | finds nothing iff no declared option has the kind, otherwise some option of that kind |
| Scanner.ResolveLong | arguments.go:65-75 | for a `--` token the exact name wins; only if it is undeclared and the token starts with `--no-` is the rest after `--no-` tried, whatever its kind |
| Scanner.Consume | arguments.go:77-84 | an option's value is recorded under its name and the cursor moves past its token and its operands; a value error is passed on |
| Scanner.ParseByName | arguments.go:55-85 | tokens not starting with `--` are not handled; an unresolvable `--` token is an unknown-option error; otherwise the resolved option consumes its operands |
| Scanner.Cluster | arguments.go:115-126 | a cluster succeeds iff every character is the shortcut of a flag; it only adds names, and the values it records fit their declared kinds |
| Scanner.ClusterSetsFlags | arguments.go:115-126 | after a successful cluster, the flag of every character is true, no other name is added and every other value is unchanged |
| Scanner.ClusterFirstError | arguments.go:115-126 | a failed cluster reports its first character that is not a flag shortcut: "unknown flag" if no option has that shortcut, "cannot mix" if the option is not a flag |
| Scanner.ParseByShortcut | arguments.go:87-129 | a two-character `-k` is looked up by shortcut and consumes operands like the long form, or is an unknown-flag error; any other `-` token is a cluster that consumes exactly its own token |
| Scanner.ScanStep | arguments.go:13-44 | each loop iteration moves the cursor forward by at least one and never past the end; it only adds names, and the names it records stay declared and well-shaped |
| Scanner.ScanStepDispatch | arguments.go:13-44 | a `--` token goes to the by-name lookup and any other `-` token to the by-shortcut lookup; any other token starts the tail, which takes the whole remaining suffix and ends the scan, or else it is an unknown argument |
| Scanner.Scan | arguments.go:10-45 | the scan only adds names, and keeps every recorded name declared with a value of its kind's shape |
| Scanner.CheckRequired | arguments.go:176-189 | passes iff every option marked required, of any kind, has a value; otherwise names a required option that has none |
| Scanner.Parse | arguments.go:10-53 | on success every key is a declared name holding its kind's shape and every required option is set; a scan error is returned as is, before requiredness; a missing required option fails a successful scan; there is no partial result |
| Scanner.ShortcutMatchesLongForm | arguments.go:98-112 | for a shortcut character other than `-` (a `--` token is routed by name), `-k` and `--key` in the same place give the same successful result, except for flags named `no-…` |
| Scanner.OperandsIgnoreOwnToken | argument.go:33-81 | an option's value depends on its own token only through the `--no-` prefix of a flag |
| Scanner.ScanStopsAtError | arguments.go:13-44 | an iteration that fails ends the scan with that error (the three error exits of the loop) |
| Scanner.UndeclaredOptionFails | arguments.go:17-19 | a `--x` token that names no option, directly or through the `--no-` retry, fails the scan with an unknown-option error quoting it, and so fails `Parse` when it is the first token |
| Scanner.TailTakesRest | arguments.go:38-44 | at a token not starting with `-`, a declared tail option receives every remaining token, later options included, and the scan ends; without one the token is an unknown argument |
| Accessors.ValueOf | values.go:7-10 | returns a value iff the name is present, and then the stored one |
| Accessors.GetString | values.go:12-24 | absent: the default, not found, no error; a string: it, found, no error; another shape: "", found, error |
| Accessors.GetStrings | values.go:26-42 | absent: the default, not found, no error; a list: it, found, no error; another shape: `[""]`, not found, error |
| Accessors.GetInteger | values.go:44-59 | absent: the default, not found, no error; an integer: it, found, no error; another shape: 0, found, error |
| Accessors.GetFloat | values.go:61-76 | absent: the default, not found, no error; a float: it, found, no error; another shape: +0.0, found, error |
| Accessors.GetBoolean | values.go:78-93 | absent: the default, not found, no error; a boolean: it, found, no error; another shape: false, found, error |
| Accessors.GettersAgreeWithValue | values.go:7-93 | every getter's error-free "found" answer is the stored value under its tag, and its error-free "not found" answer is the default for an absent name |
| Accessors.MismatchIffOtherShape | values.go:12-93 | each getter reports an error exactly when the name holds a value of another shape |
| Decoder.KindName | create.go:6-12 | every kind except Tail has a name in the type table that maps back to it; Tail has none |
| Decoder.TypesInvertKindName | create.go:6-12 | the type table has exactly the names string, strings, integer, float and flag, is inverse to `KindName`, and never yields Tail |
| Decoder.OptionalString | create.go:46-60 | an absent field reads as "", a present one must be a string or gives the field's error |
| Decoder.OptionalBool | create.go:87-93 | an absent `required` reads as false, a present one must be a boolean or gives its error |
| Decoder.CreateArgument | create.go:39-102 | decodes iff the value is a map whose title, description and shortcut are absent or strings, whose type is a string in the table and whose required is absent or a boolean; fields carry over with "" / false defaults; `default` is kept as is; errors follow the field order title, description, type, shortcut, required: the first malformed field is the one reported (a bad title even when the type is missing, a bad shortcut only once the type is valid, a bad `required` only after that) |
| Decoder.Create | create.go:15-37 | a non-map is an error; success iff every key is a string and every value decodes; the result has exactly the input's names, each decoded, none a tail; a failure reports "key must be string" only when some key is not a string, and otherwise the error of an entry under a string key |
| Decoder.CreateEncodeArgument | create.go:39-102 | decoding the configuration written for a non-tail declaration gives it back |
| Decoder.CreateEncode | create.go:15-37 | every declaration set without a tail option survives a write-then-decode round trip |
| Properties.ScanRendered | arguments.go:13-45 | scanning rendered settings (each declared, non-tail, of its kind, integers in range, floats reading back) from any cursor position yields the settings applied in order |
| Properties.ParseRendered | arguments.go:10-53 | parsing rendered settings (same side conditions) yields exactly the settings, later ones overriding earlier ones, unless a required option is unset, which is then the error |
| Properties.ApplyLastWins | arguments.go:82-82 | the last occurrence of a name is the value it ends with |
| Properties.ParsedValuesReadBack | values.go:12-93 | every value a successful parse records reads back, found and without error, through the getter of its option's kind |
| Scenarios.LongString | arguments_test.go:13-20 | `--key value` for a string option gives `{key: "value"}` |
| Scenarios.AbsentReadsDefault | arguments_test.go:22-29 | no tokens give an empty result, and the string getter then returns the default, not found |
| Scenarios.LongInteger | arguments_test.go:41-48 | `--key 100` for an integer option gives 100 |
| Scenarios.NegatedFlag | arguments_test.go:59-75 | `--no-key` gives false and `--key` gives true |
| Scenarios.TrailingOperand | argument.go:33-35 | `--key` as the last token of a string option reads past the end in Go; the model reports a missing value |
| Scenarios.BareDash | arguments.go:115-128 | a bare `-` is consumed and sets nothing |
| Scenarios.UnknownLongOption | arguments_test.go:77-82 | an undeclared `--key` is an unknown-option error |
| Scenarios.RequiredNotSet | arguments_test.go:84-90 | a required option left unset is the error |
| Scenarios.ShortcutString | arguments_test.go:92-98 | `-k value` sets the option with shortcut `k` |
| Scenarios.FlagCluster | arguments_test.go:100-111 | `-fb` sets both flags true |
| Scenarios.ClusterWithOption | arguments_test.go:113-122 | `-kv` with `v` a string option is the cannot-mix error |
| Scenarios.UnknownShortcut | arguments_test.go:124-130 | an undeclared `-k` is an unknown-flag error |
| Scenarios.PositionalTail | arguments_test.go:132-140 | positional tokens, a later `--` token included, all go to the tail option |
| Scenarios.ListThenString | arguments_test.go:142-151 | a list stops at the next `--` option but takes a `-x` token |
| Scenarios.CreateTitle | create_test.go:15-23 | a title and a type decode into the declaration |
| Scenarios.CreateWithoutType | create_test.go:35-38 | a declaration without a type is an error |
| Scenarios.CreateUnknownType | create_test.go:40-43 | an unknown type name is an error |
| Scenarios.CreateTitleCheckedFirst | create.go:46-65 | a malformed title is reported even though the type is missing |

## Left out

- `strconv.ParseFloat` is a parameter, `parseFloat: string -> Option<Float64>`. `Float64` is an IEEE 754 bit pattern. Float syntax and rounding are not modelled.
- Text.ParseDecimal: models `strconv.Atoi` on a 64-bit platform. A 32-bit `int` range is not modelled.
- Error messages are modelled as error kinds with the token or name they quote, not as text. This includes the "should be float" message of `Boolean`.
- Tokens are sequences of characters. Go's byte length (`len(current) == 2`) versus rune iteration (`range current[1:]`) for non-ASCII shortcuts is not modelled.
- Where the Go code panics on a missing operand (argument.go:34, 58, 67), the model returns `MissingValue`. See Findings.
- Title and description are carried through but never used by parsing.
- The untyped tree has strings, booleans, maps and one opaque "other" case. Numbers and lists from a configuration document count as "other"; the decoder only ever stores them as a default.
- Scanner.FindByShortcut: when several options share a shortcut, it does not say which one Go's map iteration finds.
- Scanner.FindByType: when several tail options exist, it does not say which one receives the tail.
- Scanner.CheckRequired: when several required options are missing, it does not say which one is named.
- Scanner.Parse: when several required options are missing, it does not say which one is named.
- Decoder.Create: when several entries are malformed, it does not say whose error is reported.
- Scanner.Cluster: the model fixes one entry per shortcut and one per kind for the whole parse, while Go ranges over the map afresh on every lookup (arguments.go:116, 150, 165). With two flags sharing a shortcut, `-aa` may set both in Go; the model sets one. With two tail options, two Go parses of the same tokens may store the tail under different names.
- Repeated successful parses of the same tokens agree in Go when shortcuts are unique and there is at most one tail option; a failed parse may still name a different missing required option on each run (arguments.go:177), and with shared shortcuts or several tail options successful runs may differ too. The model, being a function of its inputs, gives one answer and does not capture the disagreement.
- The tail value shares storage with the caller's token slice in Go (arguments.go:40, handed back by values.go:41), so writing to either after `Parse` changes the other; the model's sequences are values.

## Findings

| source | as written | input that shows it | evidently intended | confidence | as-written member | corrected member |
|---|---|---|---|---|---|---|
| argument.go:33-73 | String, Integer and Float read `values[pointer+1]` with no bounds check | `Parse` of the tokens `["--key"]` with `key` a String option | a structured error for a missing operand | high; not executed | Scenarios.TrailingOperand | Schema.MissingOperandIsError |

=== FILE: argument.dfy ===
/** One declared option (argument.go): its kind, its record, and how many of
    the tokens after it it consumes. */
module Schema {
  import opened Results
  import opened Text
  import opened Untyped

  /** `ArgumentType`: the six kinds, in the order of their Go constants. */
  datatype Kind = String | Strings | Integer | Float | Flag | Tail

  /** `Argument`. `defaultValue` models the `Default`/`HasDefault` pair the
      decoder assigns (`HasDefault` is `defaultValue.Some?`). */
  datatype Argument = Argument(
    title: string,
    description: string,
    kind: Kind,
    shortcut: string,
    required: bool,
    defaultValue: Option<Untyped>)

  /** The dynamic values a parse stores under an option's name. */
  datatype Value =
    | VStr(text: string)
    | VStrs(list: seq<string>)
    | VInt(number: int)
    | VFloat(float64: Float64)
    | VBool(truth: bool)

  /** `Values`: option name to the value recorded for it. */
  type Values = map<string, Value>

  /** The value shape each kind produces; a tail is a list of strings. */
  predicate Fits(kind: Kind, v: Value) {
    match kind
    case String => v.VStr?
    case Strings => v.VStrs?
    case Integer => v.VInt?
    case Float => v.VFloat?
    case Flag => v.VBool?
    case Tail => v.VStrs?
  }

  /** Everything that can make a parse fail. */
  datatype ParseError =
    | UnknownOption(token: string)
    | UnknownFlag(token: string)
    | UnknownArgument(token: string)
    | MissingValue(token: string)
    | InvalidInteger(text: string)
    | InvalidFloat(text: string)
    | UnknownArgumentType(kind: Kind)
    | MixedCluster(flag: string)
    | RequiredMissing(name: string)

  /** The list a `Strings` option collects: the maximal run of tokens from
      `from` on that do not start with `--`. Short-option tokens are taken. */
  function ListRun(values: seq<string>, from: nat): (run: seq<string>)
    requires from <= |values|
    ensures from + |run| <= |values|
    ensures run == values[from..from + |run|]
    ensures forall i :: 0 <= i < |run| ==> !HasPrefix(run[i], "--")
    ensures from + |run| == |values| || HasPrefix(values[from + |run|], "--")
    decreases |values| - from
  {
    if from == |values| || HasPrefix(values[from], "--") then []
    else [values[from]] + ListRun(values, from + 1)
  }

  /** A run with the three properties above is the one `ListRun` computes. */
  lemma {:induction false} ListRunUnique(values: seq<string>, from: nat, xs: seq<string>)
    requires from + |xs| <= |values|
    requires xs == values[from..from + |xs|]
    requires forall i :: 0 <= i < |xs| ==> !HasPrefix(xs[i], "--")
    requires from + |xs| == |values| || HasPrefix(values[from + |xs|], "--")
    ensures ListRun(values, from) == xs
    decreases |xs|
  {
    if xs != [] {
      assert values[from] == xs[0];
      ListRunUnique(values, from + 1, xs[1..]);
    }
  }

  /** `parseValue`: the value of the option whose token is at `pointer`, and
      how many tokens after it were consumed. Where Go would index past the
      end of `values` (a missing operand) the model reports `MissingValue`. */
  function ParseValue(arg: Argument, values: seq<string>, pointer: nat, parseFloat: FloatParser)
    : (r: Result<(Value, nat), ParseError>)
    requires pointer < |values|
    ensures r.Ok? ==> pointer + r.value.1 < |values| && Fits(arg.kind, r.value.0)
    ensures arg.kind == String ==>
      (r.Ok? <==> pointer + 1 < |values|)
      && (r.Ok? ==> r.value == (VStr(values[pointer + 1]), 1))
    ensures arg.kind == Strings ==>
      r.Ok?
      && r.value.0.list == values[pointer + 1..pointer + 1 + r.value.1]
      && (forall i :: pointer < i <= pointer + r.value.1 ==> !HasPrefix(values[i], "--"))
      && (pointer + 1 + r.value.1 == |values| || HasPrefix(values[pointer + 1 + r.value.1], "--"))
    ensures arg.kind == Integer ==>
      (r.Ok? <==> pointer + 1 < |values| && ParseDecimal(values[pointer + 1]).Some?)
      && (r.Ok? ==> r.value == (VInt(ParseDecimal(values[pointer + 1]).value), 1))
      && (pointer + 1 < |values| && ParseDecimal(values[pointer + 1]).None? ==>
            r == Err(InvalidInteger(values[pointer + 1])))
    ensures arg.kind == Float ==>
      (r.Ok? <==> pointer + 1 < |values| && parseFloat(values[pointer + 1]).Some?)
      && (r.Ok? ==> r.value == (VFloat(parseFloat(values[pointer + 1]).value), 1))
      && (pointer + 1 < |values| && parseFloat(values[pointer + 1]).None? ==>
            r == Err(InvalidFloat(values[pointer + 1])))
    ensures arg.kind == Flag ==>
      r.Ok? && r.value.1 == 0
      && (r.value.0 == VBool(false) <==> HasPrefix(values[pointer], "--no-"))
    ensures arg.kind == Tail ==> r == Err(UnknownArgumentType(Tail))
  {
    match arg.kind
    case String =>
      if pointer + 1 < |values| then Ok((VStr(values[pointer + 1]), 1))
      else Err(MissingValue(values[pointer]))
    case Strings =>
      var run := ListRun(values, pointer + 1);
      Ok((VStrs(run), |run|))
    case Integer =>
      if pointer + 1 == |values| then Err(MissingValue(values[pointer]))
      else (
        match ParseDecimal(values[pointer + 1])
        case None => Err(InvalidInteger(values[pointer + 1]))
        case Some(n) => Ok((VInt(n), 1)))
    case Float =>
      if pointer + 1 == |values| then Err(MissingValue(values[pointer]))
      else (
        match parseFloat(values[pointer + 1])
        case None => Err(InvalidFloat(values[pointer + 1]))
        case Some(f) => Ok((VFloat(f), 1)))
    case Flag =>
      Ok((VBool(!HasPrefix(values[pointer], "--no-")), 0))
    case Tail =>
      Err(UnknownArgumentType(Tail))
  }

  /** Where the Go code indexes past the end of `values`: an option that
      takes one operand, written as the last token. */
  predicate ReadsPastEnd(arg: Argument, values: seq<string>, pointer: nat) {
    arg.kind in {String, Integer, Float} && pointer + 1 >= |values|
  }

  /** The model turns exactly those out-of-range reads into `MissingValue`. */
  lemma MissingOperandIsError(arg: Argument, values: seq<string>, pointer: nat, parseFloat: FloatParser)
    requires pointer < |values|
    ensures ReadsPastEnd(arg, values, pointer) <==>
      ParseValue(arg, values, pointer, parseFloat) == Err(MissingValue(values[pointer]))
  {
  }
}

=== FILE: arguments.dfy ===
/** The token scanner (arguments.go): a single cursor walks the tokens, each
    token is a long option, a shortcut, a cluster of flag shortcuts, or the
    start of the positional tail, and the first error ends the parse.

    Go's map iteration order decides which entry `findByShortcut`,
    `findByType` and `checkRequired` meet first when several qualify. The
    lookups below are ghost choices: their contracts promise some qualifying
    entry and never which one, so everything built on them is ghost too. */
module Scanner {
  import opened Results
  import opened Text
  import opened Schema

  /** `Arguments`: option name to declaration. */
  type Arguments = map<string, Argument>

  /** Every recorded name is declared and holds the shape its kind produces. */
  ghost predicate Conforms(args: Arguments, vals: Values) {
    forall k :: k in vals ==> k in args && Fits(args[k].kind, vals[k])
  }

  /** Every option marked required has a recorded value. */
  ghost predicate RequiredPresent(args: Arguments, vals: Values) {
    forall k :: k in args && args[k].required ==> k in vals
  }

  // ---------------------------------------------------------------------
  // Lookups
  // ---------------------------------------------------------------------

  /** `findByKey`: the entry whose name is exactly `name`. */
  function FindByKey(args: Arguments, name: string): (r: Option<string>)
    ensures r.Some? <==> name in args
    ensures r.Some? ==> r.value == name
  {
    if name in args then Some(name) else None
  }

  /** The search shared by `findByShortcut` and `findByType`: some entry
      the test accepts, if there is one. Which one is left open, as Go's
      map iteration order is. */
  ghost function FindWhere(args: Arguments, wanted: Argument -> bool): (r: Option<string>)
    ensures r.None? <==> forall k :: k in args ==> !wanted(args[k])
    ensures r.Some? ==> r.value in args && wanted(args[r.value])
  {
    if exists k :: k in args && wanted(args[k]) then
      var k :| k in args && wanted(args[k]);
      Some(k)
    else
      None
  }

  /** `findByShortcut`: some entry with this shortcut, if there is one. */
  ghost function FindByShortcut(args: Arguments, shortcut: string): (r: Option<string>)
    ensures r.None? <==> forall k :: k in args ==> args[k].shortcut != shortcut
    ensures r.Some? ==> r.value in args && args[r.value].shortcut == shortcut
  {
    FindWhere(args, (a: Argument) => a.shortcut == shortcut)
  }

  /** `findByType`: some entry of this kind, if there is one. */
  ghost function FindByType(args: Arguments, kind: Kind): (r: Option<string>)
    ensures r.None? <==> forall k :: k in args ==> args[k].kind != kind
    ensures r.Some? ==> r.value in args && args[r.value].kind == kind
  {
    FindWhere(args, (a: Argument) => a.kind == kind)
  }

  /** The entry a `--name` token designates: the exact name first, and only
      when that is not declared and the token reads `--no-rest`, the entry
      `rest`. The retry is not restricted to flags. */
  function ResolveLong(args: Arguments, token: string): (r: Option<string>)
    requires HasPrefix(token, "--")
    ensures r.Some? ==> r.value in args
    ensures token[2..] in args ==> r == Some(token[2..])
    ensures token[2..] !in args ==>
      (r.Some? <==> HasPrefix(token, "--no-") && token[5..] in args)
    ensures token[2..] !in args && r.Some? ==> r.value == token[5..]
  {
    var name := token[2..];
    match FindByKey(args, name)
    case Some(k) => Some(k)
    case None =>
      if HasPrefix(token, "--no-") then
        assert name[3..] == token[5..];
        FindByKey(args, name[3..])
      else
        None
  }

  // ---------------------------------------------------------------------
  // One token
  // ---------------------------------------------------------------------

  /** What `parseByName` and `parseByShortcut` report: the token is not
      theirs, or they consumed it and the cursor moves to `next`. */
  datatype Handled = NotHandled | Handled(next: nat, result: Values)

  /** Record the value of option `key`, whose token is at `pointer`. */
  function Consume(args: Arguments, key: string, values: seq<string>, pointer: nat, acc: Values, parseFloat: FloatParser)
    : (r: Result<Handled, ParseError>)
    requires key in args && pointer < |values|
    ensures r.Ok? <==> ParseValue(args[key], values, pointer, parseFloat).Ok?
    ensures r.Err? ==> r.error == ParseValue(args[key], values, pointer, parseFloat).error
    ensures r.Ok? ==>
      var (v, shift) := ParseValue(args[key], values, pointer, parseFloat).value;
      r.value == Handled(pointer + 1 + shift, acc[key := v])
      && pointer < r.value.next <= |values|
      && Fits(args[key].kind, v)
  {
    var (v, shift) :- ParseValue(args[key], values, pointer, parseFloat);
    Ok(Handled(pointer + 1 + shift, acc[key := v]))
  }

  /** `parseByName`: a `--name` token. */
  function ParseByName(args: Arguments, values: seq<string>, pointer: nat, acc: Values, parseFloat: FloatParser)
    : (r: Result<Handled, ParseError>)
    requires pointer < |values|
    ensures !HasPrefix(values[pointer], "--") ==> r == Ok(NotHandled)
    ensures HasPrefix(values[pointer], "--") && ResolveLong(args, values[pointer]).None? ==>
      r == Err(UnknownOption(values[pointer]))
    ensures HasPrefix(values[pointer], "--") && ResolveLong(args, values[pointer]).Some? ==>
      r == Consume(args, ResolveLong(args, values[pointer]).value, values, pointer, acc, parseFloat)
  {
    var current := values[pointer];
    if !HasPrefix(current, "--") then Ok(NotHandled)
    else match ResolveLong(args, current)
      case None => Err(UnknownOption(current))
      case Some(key) => Consume(args, key, values, pointer, acc, parseFloat)
  }

  /** The entry a shortcut character designates. */
  ghost function ShortcutKey(args: Arguments, c: char): Option<string> {
    FindByShortcut(args, [c])
  }

  /** A character of a cluster that is accepted: the shortcut of a flag. */
  ghost predicate IsFlagShortcut(args: Arguments, c: char) {
    ShortcutKey(args, c).Some? && args[ShortcutKey(args, c).value].kind == Flag
  }

  /** The loop over the characters of a `-abc` cluster: every character must
      be the shortcut of a flag, and each such flag is set to true. The first
      offending character decides the error. */
  ghost function Cluster(args: Arguments, chars: string, acc: Values): (r: Result<Values, ParseError>)
    ensures r.Ok? <==> forall i :: 0 <= i < |chars| ==> IsFlagShortcut(args, chars[i])
    ensures r.Ok? ==> acc.Keys <= r.value.Keys
    ensures r.Ok? && Conforms(args, acc) ==> Conforms(args, r.value)
    decreases |chars|
  {
    if chars == [] then Ok(acc)
    else match ShortcutKey(args, chars[0])
      case None => Err(UnknownFlag(['-', chars[0]]))
      case Some(key) =>
        if args[key].kind != Flag then Err(MixedCluster(['-', chars[0]]))
        else Cluster(args, chars[1..], acc[key := VBool(true)])
  }

  /** A successful cluster sets the flag of every character to true, adds
      no other name and leaves every other value alone. */
  lemma {:induction false} ClusterSetsFlags(args: Arguments, chars: string, acc: Values)
    requires Cluster(args, chars, acc).Ok?
    ensures
      var r := Cluster(args, chars, acc).value;
      && (forall i :: 0 <= i < |chars| ==>
            ShortcutKey(args, chars[i]).value in r && r[ShortcutKey(args, chars[i]).value] == VBool(true))
      && (forall k :: k in r ==> k in acc || exists i :: 0 <= i < |chars| && ShortcutKey(args, chars[i]) == Some(k))
      && (forall k :: k in acc && (forall i :: 0 <= i < |chars| ==> ShortcutKey(args, chars[i]) != Some(k)) ==>
            r[k] == acc[k])
    decreases |chars|
  {
    if chars != [] {
      var key := ShortcutKey(args, chars[0]).value;
      var next := acc[key := VBool(true)];
      ClusterSetsFlags(args, chars[1..], next);
      var r := Cluster(args, chars, acc).value;
      assert r == Cluster(args, chars[1..], next).value;
      forall i | 0 <= i < |chars|
        ensures ShortcutKey(args, chars[i]).value in r && r[ShortcutKey(args, chars[i]).value] == VBool(true)
      {
        if i > 0 {
          assert chars[i] == chars[1..][i - 1];
        }
      }
      forall k | k in r
        ensures k in acc || exists i :: 0 <= i < |chars| && ShortcutKey(args, chars[i]) == Some(k)
      {
        if k !in next {
          var j :| 0 <= j < |chars[1..]| && ShortcutKey(args, chars[1..][j]) == Some(k);
          assert chars[j + 1] == chars[1..][j];
        }
      }
      forall k | k in acc && (forall i :: 0 <= i < |chars| ==> ShortcutKey(args, chars[i]) != Some(k))
        ensures r[k] == acc[k]
      {
        forall j | 0 <= j < |chars[1..]|
          ensures ShortcutKey(args, chars[1..][j]) != Some(k)
        {
          assert chars[1..][j] == chars[j + 1];
        }
      }
    }
  }

  /** A failed cluster reports its first character that is not the shortcut
      of a flag: "unknown flag" if no option has it, "cannot mix" otherwise. */
  lemma {:induction false} ClusterFirstError(args: Arguments, chars: string, acc: Values)
    requires Cluster(args, chars, acc).Err?
    ensures exists i :: (
      && 0 <= i < |chars|
      && !IsFlagShortcut(args, chars[i])
      && (forall j :: 0 <= j < i ==> IsFlagShortcut(args, chars[j]))
      && Cluster(args, chars, acc).error ==
           (if ShortcutKey(args, chars[i]).None? then UnknownFlag(['-', chars[i]]) else MixedCluster(['-', chars[i]])))
    decreases |chars|
  {
    var e := Cluster(args, chars, acc).error;
    if IsFlagShortcut(args, chars[0]) {
      var next := acc[ShortcutKey(args, chars[0]).value := VBool(true)];
      ClusterFirstError(args, chars[1..], next);
      var i :| && 0 <= i < |chars[1..]|
               && !IsFlagShortcut(args, chars[1..][i])
               && (forall j :: 0 <= j < i ==> IsFlagShortcut(args, chars[1..][j]))
               && Cluster(args, chars[1..], next).error ==
                    (if ShortcutKey(args, chars[1..][i]).None? then UnknownFlag(['-', chars[1..][i]])
                     else MixedCluster(['-', chars[1..][i]]));
      assert chars[i + 1] == chars[1..][i];
      forall j | 0 <= j < i + 1
        ensures IsFlagShortcut(args, chars[j])
      {
        if j > 0 {
          assert chars[j] == chars[1..][j - 1];
        }
      }
    } else {
      assert !IsFlagShortcut(args, chars[0]);
    }
  }

  /** `parseByShortcut`: a `-k` token is looked up by shortcut and consumes
      operands like the long form; any other token starting with `-` is a
      cluster that consumes only itself (a bare `-` sets nothing). */
  ghost function ParseByShortcut(args: Arguments, values: seq<string>, pointer: nat, acc: Values, parseFloat: FloatParser)
    : (r: Result<Handled, ParseError>)
    requires pointer < |values|
    ensures !HasPrefix(values[pointer], "-") ==> r == Ok(NotHandled)
    ensures HasPrefix(values[pointer], "-") && |values[pointer]| == 2 ==>
      var key := FindByShortcut(args, values[pointer][1..]);
      (key.None? ==> r == Err(UnknownFlag(values[pointer])))
      && (key.Some? ==> r == Consume(args, key.value, values, pointer, acc, parseFloat))
    ensures HasPrefix(values[pointer], "-") && |values[pointer]| != 2 ==>
      var cluster := Cluster(args, values[pointer][1..], acc);
      (r.Ok? <==> cluster.Ok?)
      && (r.Ok? ==> r.value == Handled(pointer + 1, cluster.value))
      && (r.Err? ==> r.error == cluster.error)
  {
    var current := values[pointer];
    if !HasPrefix(current, "-") then Ok(NotHandled)
    else if |current| == 2 then
      match FindByShortcut(args, current[1..])
      case None => Err(UnknownFlag(current))
      case Some(key) => Consume(args, key, values, pointer, acc, parseFloat)
    else
      var result :- Cluster(args, current[1..], acc);
      Ok(Handled(pointer + 1, result))
  }

  /** The outcome of one iteration of the scan loop. */
  datatype Step = Continue(next: nat, result: Values) | Finish(result: Values)

  /** One iteration of the loop in `Parse`: by name, else by shortcut, else
      the token starts the positional tail, which takes every remaining
      token (options included) and ends the scan. */
  ghost function ScanStep(args: Arguments, values: seq<string>, pointer: nat, acc: Values, parseFloat: FloatParser)
    : (r: Result<Step, ParseError>)
    requires pointer < |values|
    ensures r.Ok? && r.value.Continue? ==> pointer < r.value.next <= |values|
    ensures r.Ok? ==> acc.Keys <= r.value.result.Keys
    ensures r.Ok? && Conforms(args, acc) ==> Conforms(args, r.value.result)
  {
    var byName :- ParseByName(args, values, pointer, acc, parseFloat);
    if byName.Handled? then Ok(Continue(byName.next, byName.result))
    else
      var byShortcut :- ParseByShortcut(args, values, pointer, acc, parseFloat);
      if byShortcut.Handled? then Ok(Continue(byShortcut.next, byShortcut.result))
      else match FindByType(args, Tail)
        case Some(key) => Ok(Finish(acc[key := VStrs(values[pointer..])]))
        case None => Err(UnknownArgument(values[pointer]))
  }

  /** How one iteration dispatches a token: `--` tokens by name, other `-`
      tokens by shortcut, and anything else to the tail option. */
  lemma ScanStepDispatch(args: Arguments, values: seq<string>, pointer: nat, acc: Values, parseFloat: FloatParser)
    requires pointer < |values|
    ensures HasPrefix(values[pointer], "--") ==>
      var r := ScanStep(args, values, pointer, acc, parseFloat);
      var byName := ParseByName(args, values, pointer, acc, parseFloat);
      (r.Ok? <==> byName.Ok?)
      && (r.Ok? ==> r.value == Continue(byName.value.next, byName.value.result))
      && (r.Err? ==> r.error == byName.error)
    ensures HasPrefix(values[pointer], "-") && !HasPrefix(values[pointer], "--") ==>
      var r := ScanStep(args, values, pointer, acc, parseFloat);
      var byShortcut := ParseByShortcut(args, values, pointer, acc, parseFloat);
      (r.Ok? <==> byShortcut.Ok?)
      && (r.Ok? ==> r.value == Continue(byShortcut.value.next, byShortcut.value.result))
      && (r.Err? ==> r.error == byShortcut.error)
    ensures !HasPrefix(values[pointer], "-") ==>
      var r := ScanStep(args, values, pointer, acc, parseFloat);
      var tail := FindByType(args, Tail);
      (tail.Some? ==> r == Ok(Finish(acc[tail.value := VStrs(values[pointer..])])))
      && (tail.None? ==> r == Err(UnknownArgument(values[pointer])))
  {
  }

  /** The scan loop from cursor `pointer` with the values recorded so far.
      A later occurrence of an option overwrites an earlier one; names are
      only ever added. */
  ghost function Scan(args: Arguments, values: seq<string>, pointer: nat, acc: Values, parseFloat: FloatParser)
    : (r: Result<Values, ParseError>)
    requires pointer <= |values|
    ensures pointer == |values| ==> r == Ok(acc)
    ensures r.Ok? ==> acc.Keys <= r.value.Keys
    ensures r.Ok? && Conforms(args, acc) ==> Conforms(args, r.value)
    decreases |values| - pointer
  {
    if pointer == |values| then Ok(acc)
    else
      var step :- ScanStep(args, values, pointer, acc, parseFloat);
      match step
      case Continue(next, result) => Scan(args, values, next, result, parseFloat)
      case Finish(result) => Ok(result)
  }

  /** `checkRequired`: fails, naming some missing option, exactly when an
      option marked required (of any kind, flags included) has no value. */
  ghost function CheckRequired(args: Arguments, vals: Values): (r: Result<(), ParseError>)
    ensures r.Ok? <==> RequiredPresent(args, vals)
    ensures r.Err? ==>
      r.error.RequiredMissing? && r.error.name in args
      && args[r.error.name].required && r.error.name !in vals
  {
    if exists k :: k in args && args[k].required && k !in vals then
      var k :| k in args && args[k].required && k !in vals;
      Err(RequiredMissing(k))
    else
      Ok(())
  }

  /** `Arguments.Parse`: scan from the first token with nothing recorded,
      then check requiredness. There is never a partial result: any error
      of the scan is returned as is, and requiredness is only checked after
      a scan without error. */
  ghost function Parse(args: Arguments, values: seq<string>, parseFloat: FloatParser): (r: Result<Values, ParseError>)
    ensures r.Ok? ==> Conforms(args, r.value) && RequiredPresent(args, r.value)
    ensures
      var scan := Scan(args, values, 0, map[], parseFloat);
      && (scan.Err? ==> r == scan)
      && (scan.Ok? && RequiredPresent(args, scan.value) ==> r == scan)
      && (scan.Ok? && !RequiredPresent(args, scan.value) ==>
            r.Err? && r.error.RequiredMissing?
            && r.error.name in args && args[r.error.name].required && r.error.name !in scan.value)
  {
    var result :- Scan(args, values, 0, map[], parseFloat);
    var _ :- CheckRequired(args, result);
    Ok(result)
  }

  // ---------------------------------------------------------------------
  // Properties of the scan
  // ---------------------------------------------------------------------

  /** A token `-c` naming option `key` by shortcut is handled exactly like
      the token `--key` in its place, except that a flag named `no-...`
      reads false in the long form and true in the short one. Only the
      error texts differ, since they quote the token. */
  lemma ShortcutMatchesLongForm(args: Arguments, values: seq<string>, pointer: nat, acc: Values,
                                parseFloat: FloatParser, c: char, key: string)
    requires pointer < |values| && values[pointer] == ['-', c] && c != '-'
    requires FindByShortcut(args, [c]) == Some(key)
    requires args[key].kind == Flag ==> !HasPrefix(key, "no-")
    ensures
      var short := ParseByShortcut(args, values, pointer, acc, parseFloat);
      var long := ParseByName(args, values[pointer := "--" + key], pointer, acc, parseFloat);
      (short.Ok? <==> long.Ok?) && (short.Ok? ==> short == long)
  {
    var long := values[pointer := "--" + key];
    assert values[pointer][1..] == [c];
    assert HasPrefix(long[pointer], "--") && long[pointer][2..] == key;
    NegatedLongForm(key);
    OperandsIgnoreOwnToken(args[key], values, pointer, "--" + key, parseFloat);
  }

  /** An option's value depends on its own token only through the `--no-`
      prefix, and only for flags. */
  lemma OperandsIgnoreOwnToken(arg: Argument, values: seq<string>, pointer: nat, token: string, parseFloat: FloatParser)
    requires pointer < |values|
    requires arg.kind == Flag ==> (HasPrefix(values[pointer], "--no-") <==> HasPrefix(token, "--no-"))
    ensures
      var a := ParseValue(arg, values, pointer, parseFloat);
      var b := ParseValue(arg, values[pointer := token], pointer, parseFloat);
      (a.Ok? <==> b.Ok?) && (a.Ok? ==> a == b)
  {
    var other := values[pointer := token];
    if arg.kind == Strings {
      var run := ListRun(values, pointer + 1);
      assert other[pointer + 1..pointer + 1 + |run|] == values[pointer + 1..pointer + 1 + |run|];
      ListRunUnique(other, pointer + 1, run);
    }
  }

  /** The positional tail: at a token not starting with `-`, a declared tail
      option receives every remaining token, later `--x` tokens included,
      and the scan ends; without one the token is an unknown argument. */
  lemma TailTakesRest(args: Arguments, values: seq<string>, pointer: nat, acc: Values, parseFloat: FloatParser)
    requires pointer < |values| && !HasPrefix(values[pointer], "-")
    ensures FindByType(args, Tail).Some? ==>
      Scan(args, values, pointer, acc, parseFloat) == Ok(acc[FindByType(args, Tail).value := VStrs(values[pointer..])])
    ensures FindByType(args, Tail).None? ==>
      Scan(args, values, pointer, acc, parseFloat) == Err(UnknownArgument(values[pointer]))
  {
  }

  /** A failed iteration ends the scan with its error: nothing after the
      offending token is read. */
  lemma ScanStopsAtError(args: Arguments, values: seq<string>, pointer: nat, acc: Values, parseFloat: FloatParser)
    requires pointer < |values|
    requires ScanStep(args, values, pointer, acc, parseFloat).Err?
    ensures Scan(args, values, pointer, acc, parseFloat) == Err(ScanStep(args, values, pointer, acc, parseFloat).error)
  {
  }

  /** An undeclared `--x` token makes the whole parse fail with an
      unknown-option error naming it, whatever precedes it as long as the
      scan reaches it. */
  lemma UndeclaredOptionFails(args: Arguments, values: seq<string>, pointer: nat, acc: Values,
                              parseFloat: FloatParser)
    requires pointer < |values|
    requires HasPrefix(values[pointer], "--") && ResolveLong(args, values[pointer]).None?
    ensures Scan(args, values, pointer, acc, parseFloat) == Err(UnknownOption(values[pointer]))
    ensures pointer == 0 ==> Parse(args, values, parseFloat) == Err(UnknownOption(values[0]))
  {
    ScanStepDispatch(args, values, pointer, acc, parseFloat);
    ScanStopsAtError(args, values, pointer, acc, parseFloat);
  }
}

=== FILE: create.dfy ===
/** The schema decoder (create.go): turns an untyped tree, as decoded from
    a configuration document, into declarations. Go's map iteration order
    decides which offending entry `Create` meets first; the model reports
    some offending entry and never says which. */
module Decoder {
  import opened Results
  import opened Untyped
  import opened Schema
  import Scanner

  datatype CreateError =
    | NotAMap
    | KeyNotString
    | ArgumentNotMap
    | TitleNotString
    | DescriptionNotString
    | TypeMissing
    | TypeNotString
    | UnknownType(name: string)
    | ShortcutNotString
    | RequiredNotBool

  /** `types`: the names a configuration may give a kind. There is none for `Tail`. */
  const Types: map<string, Kind> :=
    map["string" := String, "strings" := Strings, "integer" := Integer, "float" := Float, "flag" := Flag]

  /** The name `Types` gives a kind, if any. */
  function KindName(kind: Kind): (r: Option<string>)
    ensures r.Some? ==> r.value in Types && Types[r.value] == kind
    ensures r.None? <==> kind == Tail
  {
    match kind
    case String => Some("string")
    case Strings => Some("strings")
    case Integer => Some("integer")
    case Float => Some("float")
    case Flag => Some("flag")
    case Tail => None
  }

  /** `KindName` and `Types` are inverse bijections between the five names and
      the five kinds other than `Tail`. */
  lemma TypesInvertKindName()
    ensures forall name :: name in Types ==> KindName(Types[name]) == Some(name)
    ensures forall kind :: kind != Tail ==> KindName(kind).Some? && Types[KindName(kind).value] == kind
    ensures Types.Keys == {"string", "strings", "integer", "float", "flag"}
    ensures Tail !in Types.Values
  {
    assert Types["string"] == String;
  }

  /** An optional string field: absent reads as "", present must be a string. */
  function OptionalString(entries: map<Key, Untyped>, field: string, err: CreateError)
    : (r: Result<string, CreateError>)
    ensures KStr(field) !in entries ==> r == Ok("")
    ensures KStr(field) in entries ==>
      (r.Ok? <==> entries[KStr(field)].UStr?)
      && (r.Ok? ==> r.value == entries[KStr(field)].s)
      && (r.Err? ==> r.error == err)
  {
    if KStr(field) !in entries then Ok("")
    else match entries[KStr(field)]
      case UStr(s) => Ok(s)
      case _ => Err(err)
  }

  /** An optional boolean field: absent reads as false, present must be a bool. */
  function OptionalBool(entries: map<Key, Untyped>, field: string, err: CreateError)
    : (r: Result<bool, CreateError>)
    ensures KStr(field) !in entries ==> r == Ok(false)
    ensures KStr(field) in entries ==>
      (r.Ok? <==> entries[KStr(field)].UBool?)
      && (r.Ok? ==> r.value == entries[KStr(field)].b)
      && (r.Err? ==> r.error == err)
  {
    if KStr(field) !in entries then Ok(false)
    else match entries[KStr(field)]
      case UBool(b) => Ok(b)
      case _ => Err(err)
  }

  /** A field that is either absent or of the given shape. */
  predicate StringOrAbsent(entries: map<Key, Untyped>, field: string) {
    KStr(field) in entries ==> entries[KStr(field)].UStr?
  }

  /** A sub-mapping whose fields up to and including `type` are well formed. */
  predicate ValidType(u: Untyped) {
    && u.UMap?
    && StringOrAbsent(u.entries, "title")
    && StringOrAbsent(u.entries, "description")
    && KStr("type") in u.entries
    && u.entries[KStr("type")].UStr?
    && u.entries[KStr("type")].s in Types
  }

  /** The conditions under which one option's sub-mapping decodes. */
  predicate ValidArgument(u: Untyped) {
    && ValidType(u)
    && StringOrAbsent(u.entries, "shortcut")
    && (KStr("required") in u.entries ==> u.entries[KStr("required")].UBool?)
  }

  /** `createArgument`. Fields are checked in the order title, description,
      type, shortcut, required, so an earlier malformed field is the one
      reported; `default` is kept as is whatever its shape. */
  function CreateArgument(u: Untyped): (r: Result<Argument, CreateError>)
    ensures r.Ok? <==> ValidArgument(u)
    ensures r.Ok? ==>
      && r.value.kind == Types[u.entries[KStr("type")].s]
      && r.value.kind != Tail
      && (r.value.title == if KStr("title") in u.entries then u.entries[KStr("title")].s else "")
      && (r.value.description == if KStr("description") in u.entries then u.entries[KStr("description")].s else "")
      && (r.value.shortcut == if KStr("shortcut") in u.entries then u.entries[KStr("shortcut")].s else "")
      && (r.value.required <==> KStr("required") in u.entries && u.entries[KStr("required")].b)
      && (r.value.defaultValue.Some? <==> KStr("default") in u.entries)
      && (r.value.defaultValue.Some? ==> r.value.defaultValue.value == u.entries[KStr("default")])
    ensures !u.UMap? ==> r == Err(ArgumentNotMap)
    ensures u.UMap? && !StringOrAbsent(u.entries, "title") ==> r == Err(TitleNotString)
    ensures u.UMap? && StringOrAbsent(u.entries, "title") && !StringOrAbsent(u.entries, "description") ==>
      r == Err(DescriptionNotString)
    ensures u.UMap? && StringOrAbsent(u.entries, "title") && StringOrAbsent(u.entries, "description") ==>
      (KStr("type") !in u.entries ==> r == Err(TypeMissing))
      && (KStr("type") in u.entries && !u.entries[KStr("type")].UStr? ==> r == Err(TypeNotString))
      && (KStr("type") in u.entries && u.entries[KStr("type")].UStr? && u.entries[KStr("type")].s !in Types ==>
            r == Err(UnknownType(u.entries[KStr("type")].s)))
    ensures ValidType(u) && !StringOrAbsent(u.entries, "shortcut") ==> r == Err(ShortcutNotString)
    ensures
      && ValidType(u)
      && StringOrAbsent(u.entries, "shortcut")
      && KStr("required") in u.entries
      && !u.entries[KStr("required")].UBool?
      ==> r == Err(RequiredNotBool)
  {
    if !u.UMap? then Err(ArgumentNotMap)
    else
      var entries := u.entries;
      var title :- OptionalString(entries, "title", TitleNotString);
      var description :- OptionalString(entries, "description", DescriptionNotString);
      if KStr("type") !in entries then Err(TypeMissing)
      else if !entries[KStr("type")].UStr? then Err(TypeNotString)
      else if entries[KStr("type")].s !in Types then Err(UnknownType(entries[KStr("type")].s))
      else
        var kind := Types[entries[KStr("type")].s];
        var shortcut :- OptionalString(entries, "shortcut", ShortcutNotString);
        var required :- OptionalBool(entries, "required", RequiredNotBool);
        var defaultValue := if KStr("default") in entries then Some(entries[KStr("default")]) else None;
        Ok(Argument(title, description, kind, shortcut, required, defaultValue))
  }

  /** An entry of the top-level mapping that makes `Create` fail. */
  predicate Offending(entries: map<Key, Untyped>, k: Key)
    requires k in entries
  {
    !k.KStr? || CreateArgument(entries[k]).Err?
  }

  /** `Create`: every key must be a string and every value must decode; the
      result has exactly the input's names, each decoded. */
  ghost function Create(u: Untyped): (r: Result<Scanner.Arguments, CreateError>)
    ensures !u.UMap? ==> r == Err(NotAMap)
    ensures r.Ok? <==> u.UMap? && forall k :: k in u.entries ==> !Offending(u.entries, k)
    ensures r.Ok? ==> forall name :: name in r.value <==> KStr(name) in u.entries
    ensures r.Ok? ==> forall name :: name in r.value ==> CreateArgument(u.entries[KStr(name)]) == Ok(r.value[name])
    ensures r.Ok? ==> forall name :: name in r.value ==> r.value[name].kind != Tail
    ensures r.Err? && u.UMap? ==>
      || (r.error == KeyNotString && exists k :: k in u.entries && !k.KStr?)
      || exists k :: k in u.entries && k.KStr? && CreateArgument(u.entries[k]) == Err(r.error)
  {
    if !u.UMap? then Err(NotAMap)
    else if exists k :: k in u.entries && Offending(u.entries, k) then
      var k :| k in u.entries && Offending(u.entries, k);
      if !k.KStr? then Err(KeyNotString) else Err(CreateArgument(u.entries[k]).error)
    else
      Ok(map k | k in u.entries :: k.s := CreateArgument(u.entries[k]).value)
  }

  // ---------------------------------------------------------------------
  // The inverse direction
  // ---------------------------------------------------------------------

  /** The sub-mapping a configuration would give for a declaration. */
  function EncodeArgument(a: Argument): (u: Untyped)
    requires a.kind != Tail
    ensures u.UMap?
  {
    var fields := map[
      KStr("title") := UStr(a.title),
      KStr("description") := UStr(a.description),
      KStr("type") := UStr(KindName(a.kind).value),
      KStr("shortcut") := UStr(a.shortcut),
      KStr("required") := UBool(a.required)];
    UMap(if a.defaultValue.Some? then fields[KStr("default") := a.defaultValue.value] else fields)
  }

  /** The configuration a set of declarations would be written as. */
  function Encode(args: Scanner.Arguments): (u: Untyped)
    requires forall name :: name in args ==> args[name].kind != Tail
    ensures u.UMap?
  {
    UMap(map name | name in args :: KStr(name) := EncodeArgument(args[name]))
  }

  /** Decoding an encoded declaration gives it back. */
  lemma CreateEncodeArgument(a: Argument)
    requires a.kind != Tail
    ensures CreateArgument(EncodeArgument(a)) == Ok(a)
  {
    var u := EncodeArgument(a);
    assert KindName(a.kind).Some?;
    assert ValidArgument(u);
  }

  /** Every declaration set without a tail option survives a configuration
      round trip: tail options are the only ones a configuration cannot
      express. */
  lemma CreateEncode(args: Scanner.Arguments)
    requires forall name :: name in args ==> args[name].kind != Tail
    ensures Create(Encode(args)) == Ok(args)
  {
    var entries := Encode(args).entries;
    forall k | k in entries
      ensures !Offending(entries, k)
    {
      EncodedKey(args, k);
      EncodedEntry(args, k.s);
    }
    var r := Create(Encode(args));
    assert r.Ok?;
    forall name | name in args
      ensures name in r.value && r.value[name] == args[name]
    {
      EncodedEntry(args, name);
      assert CreateArgument(entries[KStr(name)]) == Ok(r.value[name]);
    }
    forall name | name in r.value
      ensures name in args
    {
      EncodedKey(args, KStr(name));
    }
    SameMaps(r.value, args);
  }

  lemma EncodedEntry(args: Scanner.Arguments, name: string)
    requires forall name :: name in args ==> args[name].kind != Tail
    requires name in args
    ensures KStr(name) in Encode(args).entries
    ensures CreateArgument(Encode(args).entries[KStr(name)]) == Ok(args[name])
  {
    CreateEncodeArgument(args[name]);
  }

  lemma EncodedKey(args: Scanner.Arguments, k: Key)
    requires forall name :: name in args ==> args[name].kind != Tail
    requires k in Encode(args).entries
    ensures k.KStr? && k.s in args
  {
  }

  lemma SameMaps<K, V>(m: map<K, V>, m': map<K, V>)
    requires forall k :: k in m <==> k in m'
    requires forall k :: k in m ==> m[k] == m'[k]
    ensures m == m'
  {
  }
}

=== FILE: properties.dfy ===
/** Properties that tie the scanner, the per-kind consumption rules and the
    getters together: writing settings out as `--name value` tokens and
    parsing them gives the settings back, later ones winning, and every
    parsed value can be read with the getter of its kind. */
module Properties {
  import opened Results
  import opened Text
  import opened Schema
  import opened Scanner
  import opened Accessors

  /** One option occurrence on a command line: a name and the value to give it. */
  datatype Setting = Setting(name: string, value: Value)

  /** The tokens a setting is written as. Floats are spelled by `formatFloat`. */
  function RenderOne(s: Setting, formatFloat: Float64 -> string): (tokens: seq<string>)
    ensures |tokens| >= 1 && HasPrefix(tokens[0], "--")
  {
    match s.value
    case VStr(text) => ["--" + s.name, text]
    case VStrs(list) => ["--" + s.name] + list
    case VInt(n) => ["--" + s.name, FormatDecimal(n)]
    case VFloat(f) => ["--" + s.name, formatFloat(f)]
    case VBool(b) => if b then ["--" + s.name] else ["--no-" + s.name]
  }

  /** The command line for a sequence of settings. */
  function Render(settings: seq<Setting>, formatFloat: Float64 -> string): (tokens: seq<string>)
    ensures tokens == [] || HasPrefix(tokens[0], "--")
  {
    if settings == [] then [] else RenderOne(settings[0], formatFloat) + Render(settings[1..], formatFloat)
  }

  /** The names the settings mention. */
  function Names(settings: seq<Setting>): (names: set<string>)
    ensures forall i :: 0 <= i < |settings| ==> settings[i].name in names
    ensures forall n :: n in names ==> exists i :: 0 <= i < |settings| && settings[i].name == n
  {
    if settings == [] then {} else {settings[0].name} + Names(settings[1..])
  }

  /** The values the settings leave behind, a later setting of a name
      replacing an earlier one. */
  function Apply(acc: Values, settings: seq<Setting>): (r: Values)
    ensures r.Keys == acc.Keys + Names(settings)
    decreases |settings|
  {
    if settings == [] then acc
    else Apply(acc[settings[0].name := settings[0].value], settings[1..])
  }

  /** A setting the scanner reads back as written: a declared non-tail
      option given a value of its kind, with list elements that do not look
      like long options, an integer within Go's `int`, and a flag whose long
      form is not mistaken for a negation or for another option. */
  predicate Renderable(args: Arguments, s: Setting) {
    && s.name in args
    && args[s.name].kind != Tail
    && Fits(args[s.name].kind, s.value)
    && (s.value.VStrs? ==> forall i :: 0 <= i < |s.value.list| ==> !HasPrefix(s.value.list[i], "--"))
    && (s.value.VInt? ==> InIntRange(s.value.number))
    && (s.value.VBool? && s.value.truth ==> !HasPrefix(s.name, "no-"))
    && (s.value.VBool? && !s.value.truth ==> "no-" + s.name !in args)
  }

  /** The float a setting holds, if any, reads back from its rendering. Only
      the floats actually rendered are asked to survive the round trip. */
  predicate FloatReadsBack(s: Setting, parseFloat: FloatParser, formatFloat: Float64 -> string) {
    s.value.VFloat? ==> parseFloat(formatFloat(s.value.float64)) == Some(s.value.float64)
  }

  /** The long-option token of a renderable setting names its option. */
  lemma ResolveRendered(args: Arguments, s: Setting, formatFloat: Float64 -> string)
    requires Renderable(args, s)
    ensures ResolveLong(args, RenderOne(s, formatFloat)[0]) == Some(s.name)
  {
    var token := RenderOne(s, formatFloat)[0];
    if s.value == VBool(false) {
      assert token == "--no-" + s.name;
      assert token[2..] == "no-" + s.name;
      assert HasPrefix(token, "--no-") && token[5..] == s.name;
    } else {
      assert token == "--" + s.name;
      assert token[2..] == s.name;
    }
  }

  /** The operands of a renderable setting parse to its value and are all
      consumed, provided what follows is empty or a long option. */
  lemma ParseValueRendered(args: Arguments, pre: seq<string>, s: Setting, rest: seq<string>,
                           parseFloat: FloatParser, formatFloat: Float64 -> string)
    requires Renderable(args, s)
    requires FloatReadsBack(s, parseFloat, formatFloat)
    requires rest == [] || HasPrefix(rest[0], "--")
    ensures
      var one := RenderOne(s, formatFloat);
      ParseValue(args[s.name], pre + one + rest, |pre|, parseFloat) == Ok((s.value, |one| - 1))
  {
    var one := RenderOne(s, formatFloat);
    var values := pre + one + rest;
    var p := |pre|;
    assert values[p] == one[0];
    match s.value
    case VStr(text) =>
      assert values[p + 1] == text;
    case VStrs(list) =>
      assert values[p + 1..p + 1 + |list|] == list;
      if rest != [] {
        assert values[p + 1 + |list|] == rest[0];
      }
      ListRunUnique(values, p + 1, list);
    case VInt(n) =>
      assert values[p + 1] == FormatDecimal(n);
      ParseFormatDecimal(n);
    case VFloat(f) =>
      assert values[p + 1] == formatFloat(f);
    case VBool(b) =>
      if b {
        NegatedLongForm(s.name);
      } else {
        assert one[0] == "--no-" + s.name;
        assert one[0][..5] == "--no-";
      }
  }

  /** One scan step over a renderable setting records it and moves past it. */
  lemma StepRendered(args: Arguments, pre: seq<string>, s: Setting, rest: seq<string>, acc: Values,
                     parseFloat: FloatParser, formatFloat: Float64 -> string)
    requires Renderable(args, s)
    requires FloatReadsBack(s, parseFloat, formatFloat)
    requires rest == [] || HasPrefix(rest[0], "--")
    ensures
      var one := RenderOne(s, formatFloat);
      ScanStep(args, pre + one + rest, |pre|, acc, parseFloat)
        == Ok(Continue(|pre| + |one|, acc[s.name := s.value]))
  {
    var one := RenderOne(s, formatFloat);
    var values := pre + one + rest;
    assert values[|pre|] == one[0];
    ResolveRendered(args, s, formatFloat);
    ParseValueRendered(args, pre, s, rest, parseFloat, formatFloat);
  }

  /** Scanning a rendered command line from any cursor position reproduces
      the settings. */
  lemma {:induction false} ScanRendered(args: Arguments, pre: seq<string>, settings: seq<Setting>, acc: Values,
                                        parseFloat: FloatParser, formatFloat: Float64 -> string)
    requires forall i :: 0 <= i < |settings| ==> Renderable(args, settings[i])
    requires forall i :: 0 <= i < |settings| ==> FloatReadsBack(settings[i], parseFloat, formatFloat)
    ensures Scan(args, pre + Render(settings, formatFloat), |pre|, acc, parseFloat) == Ok(Apply(acc, settings))
    decreases |settings|
  {
    if settings == [] {
      assert pre + Render(settings, formatFloat) == pre;
    } else {
      var one := RenderOne(settings[0], formatFloat);
      var rest := Render(settings[1..], formatFloat);
      var next := acc[settings[0].name := settings[0].value];
      assert pre + Render(settings, formatFloat) == (pre + one) + rest;
      ScanPastRendered(args, pre, settings[0], rest, acc, parseFloat, formatFloat);
      ScanRendered(args, pre + one, settings[1..], next, parseFloat, formatFloat);
    }
  }

  /** The scan over a rendered setting resumes right after it, with the
      setting recorded. */
  lemma ScanPastRendered(args: Arguments, pre: seq<string>, s: Setting, rest: seq<string>, acc: Values,
                         parseFloat: FloatParser, formatFloat: Float64 -> string)
    requires Renderable(args, s)
    requires FloatReadsBack(s, parseFloat, formatFloat)
    requires rest == [] || HasPrefix(rest[0], "--")
    ensures
      var one := RenderOne(s, formatFloat);
      Scan(args, (pre + one) + rest, |pre|, acc, parseFloat)
        == Scan(args, (pre + one) + rest, |pre + one|, acc[s.name := s.value], parseFloat)
  {
    var one := RenderOne(s, formatFloat);
    var values := pre + one + rest;
    assert (pre + one) + rest == values;
    StepRendered(args, pre, s, rest, acc, parseFloat, formatFloat);
    var step := Continue(|pre| + |one|, acc[s.name := s.value]);
    assert ScanStep(args, values, |pre|, acc, parseFloat) == Ok(step);
    ScanContinues(args, values, |pre|, acc, parseFloat, step);
    assert step.next == |pre + one| && step.result == acc[s.name := s.value];
  }

  /** After a step that continues, the scan goes on from where it left off. */
  lemma ScanContinues(args: Arguments, values: seq<string>, pointer: nat, acc: Values, parseFloat: FloatParser,
                      step: Step)
    requires pointer < |values|
    requires ScanStep(args, values, pointer, acc, parseFloat) == Ok(step)
    requires step.Continue?
    ensures step.next <= |values|
    ensures Scan(args, values, pointer, acc, parseFloat) == Scan(args, values, step.next, step.result, parseFloat)
  {
  }

  /** Render-then-parse: the parse yields exactly the settings (later ones
      winning) unless a required option was never set. */
  lemma ParseRendered(args: Arguments, settings: seq<Setting>, parseFloat: FloatParser, formatFloat: Float64 -> string)
    requires forall i :: 0 <= i < |settings| ==> Renderable(args, settings[i])
    requires forall i :: 0 <= i < |settings| ==> FloatReadsBack(settings[i], parseFloat, formatFloat)
    ensures RequiredPresent(args, Apply(map[], settings)) ==>
      Parse(args, Render(settings, formatFloat), parseFloat) == Ok(Apply(map[], settings))
    ensures !RequiredPresent(args, Apply(map[], settings)) ==>
      Parse(args, Render(settings, formatFloat), parseFloat).Err?
      && Parse(args, Render(settings, formatFloat), parseFloat).error.RequiredMissing?
  {
    ScanRendered(args, [], settings, map[], parseFloat, formatFloat);
    assert [] + Render(settings, formatFloat) == Render(settings, formatFloat);
  }

  /** A name no setting mentions keeps its earlier value. */
  lemma {:induction false} ApplyUntouched(acc: Values, settings: seq<Setting>, name: string)
    requires name in acc
    requires forall j :: 0 <= j < |settings| ==> settings[j].name != name
    ensures Apply(acc, settings)[name] == acc[name]
    decreases |settings|
  {
    if settings != [] {
      ApplyUntouched(acc[settings[0].name := settings[0].value], settings[1..], name);
    }
  }

  /** The last setting of a name is the value it ends with. */
  lemma {:induction false} ApplyLastWins(acc: Values, settings: seq<Setting>, i: nat)
    requires i < |settings|
    requires forall j :: i < j < |settings| ==> settings[j].name != settings[i].name
    ensures Apply(acc, settings)[settings[i].name] == settings[i].value
    decreases i
  {
    var first := acc[settings[0].name := settings[0].value];
    if i == 0 {
      ApplyUntouched(first, settings[1..], settings[0].name);
    } else {
      ApplyLastWins(first, settings[1..], i - 1);
    }
  }

  /** Every value a successful parse records can be read, without error and
      as found, through the getter of its option's kind. */
  lemma ParsedValuesReadBack(args: Arguments, values: seq<string>, parseFloat: FloatParser, key: string)
    requires Parse(args, values, parseFloat).Ok?
    requires key in Parse(args, values, parseFloat).value
    ensures key in args
    ensures
      var vals := Parse(args, values, parseFloat).value;
      var kind := args[key].kind;
      && (kind == String ==> forall d :: GetString(vals, key, d) == Got(vals[key].text, true, None))
      && (kind in {Strings, Tail} ==> forall d :: GetStrings(vals, key, d) == Got(vals[key].list, true, None))
      && (kind == Integer ==> forall d :: GetInteger(vals, key, d) == Got(vals[key].number, true, None))
      && (kind == Float ==> forall d :: GetFloat(vals, key, d) == Got(vals[key].float64, true, None))
      && (kind == Flag ==> forall d :: GetBoolean(vals, key, d) == Got(vals[key].truth, true, None))
  {
  }
}

=== FILE: results.dfy ===
/** Optional values and success-or-error outcomes, usable with `:-`.
    Go's `(value, error)` pairs become `Result`, and Go's `(value, ok)`
    lookups become `Option`. */
module Results {

  datatype Option<+T> = None | Some(value: T)

  datatype Result<+T, +E> = Ok(value: T) | Err(error: E) {

    predicate IsFailure() {
      Err?
    }

    function PropagateFailure<U>(): Result<U, E>
      requires Err?
    {
      Err(error)
    }

    function Extract(): T
      requires Ok?
    {
      value
    }
  }
}

=== FILE: scenarios.dfy ===
/** Concrete command lines and configurations with the outcome the
    repository's tests expect of them, proved of the model. */
module Scenarios {
  import opened Results
  import opened Text
  import opened Untyped
  import opened Schema
  import opened Scanner
  import opened Accessors
  import opened Decoder

  /** A declaration with no title, description or default. */
  function Decl(kind: Kind, shortcut: string, required: bool): (a: Argument)
    ensures a.kind == kind && a.shortcut == shortcut && a.required == required
  {
    Argument("", "", kind, shortcut, required, None)
  }

  lemma LongString(parseFloat: FloatParser)
    ensures Parse(map["key" := Decl(String, "", false)], ["--key", "value"], parseFloat)
      == Ok(map["key" := VStr("value")])
  {
    var values := ["--key", "value"];
    assert values[0][2..] == "key";
  }

  lemma AbsentReadsDefault(parseFloat: FloatParser)
    ensures Parse(map["key" := Decl(String, "", false)], [], parseFloat) == Ok(map[])
    ensures GetString(map[], "key", "DEFAULT") == Got("DEFAULT", false, None)
  {
  }

  lemma LongInteger(parseFloat: FloatParser)
    ensures Parse(map["key" := Decl(Integer, "", false)], ["--key", "100"], parseFloat)
      == Ok(map["key" := VInt(100)])
  {
    var values := ["--key", "100"];
    assert values[0][2..] == "key";
    assert ParseDecimal("100") == Some(100) by {
      var s := "100";
      assert s[0] == '1' && AllDigits(s);
      assert s[..2] == "10" && "10"[..1] == "1" && "1"[..0] == "";
      assert DigitsValue("1") == 1;
      assert DigitsValue("10") == 10;
      assert DigitsValue(s) == 100;
    }
  }

  lemma NegatedFlag(parseFloat: FloatParser)
    ensures Parse(map["key" := Decl(Flag, "", false)], ["--no-key"], parseFloat)
      == Ok(map["key" := VBool(false)])
    ensures Parse(map["key" := Decl(Flag, "", false)], ["--key"], parseFloat)
      == Ok(map["key" := VBool(true)])
  {
    var args := map["key" := Decl(Flag, "", false)];
    var negated := ["--no-key"];
    assert negated[0][2..] == "no-key" && negated[0][5..] == "key";
    assert "no-key" !in args;
    assert HasPrefix(negated[0], "--no-");
    assert ResolveLong(args, negated[0]) == Some("key");
    assert ScanStep(args, negated, 0, map[], parseFloat) == Ok(Continue(1, map["key" := VBool(false)]));
    var plain := ["--key"];
    assert plain[0][2..] == "key";
    assert !HasPrefix(plain[0], "--no-") by { assert plain[0][2] != "--no-"[2]; }
    assert ScanStep(args, plain, 0, map[], parseFloat) == Ok(Continue(1, map["key" := VBool(true)]));
  }

  /** A trailing `--key` for an option that takes an operand: the Go code
      reads past the end of the tokens here, the model reports it. */
  lemma TrailingOperand(parseFloat: FloatParser)
    ensures ResolveLong(map["key" := Decl(String, "", false)], "--key") == Some("key")
    ensures ReadsPastEnd(Decl(String, "", false), ["--key"], 0)
    ensures Parse(map["key" := Decl(String, "", false)], ["--key"], parseFloat) == Err(MissingValue("--key"))
  {
    var values := ["--key"];
    assert values[0][2..] == "key";
  }

  /** A bare `-` is a cluster of no characters: consumed, nothing set. */
  lemma BareDash(parseFloat: FloatParser)
    ensures Parse(map["key" := Decl(Flag, "k", false)], ["-", "-k"], parseFloat) == Ok(map["key" := VBool(true)])
  {
    var args := map["key" := Decl(Flag, "k", false)];
    var values := ["-", "-k"];
    assert !HasPrefix(values[0], "--");
    assert values[0][1..] == "";
    assert ScanStep(args, values, 0, map[], parseFloat) == Ok(Continue(1, map[]));
    assert !HasPrefix(values[1], "--") by { assert values[1][1] != '-'; }
    assert values[1][1..] == "k";
    assert args["key"].shortcut == "k";
    assert FindByShortcut(args, "k") == Some("key");
    assert ScanStep(args, values, 1, map[], parseFloat) == Ok(Continue(2, map["key" := VBool(true)]));
  }

  lemma UnknownLongOption(parseFloat: FloatParser)
    ensures Parse(map[], ["--key", "value"], parseFloat) == Err(UnknownOption("--key"))
  {
  }

  lemma RequiredNotSet(parseFloat: FloatParser)
    ensures Parse(map["key" := Decl(String, "", true)], [], parseFloat) == Err(RequiredMissing("key"))
  {
    var args := map["key" := Decl(String, "", true)];
    assert !RequiredPresent(args, map[]) by { assert args["key"].required; }
  }

  lemma ShortcutString(parseFloat: FloatParser)
    ensures Parse(map["key" := Decl(String, "k", false)], ["-k", "value"], parseFloat)
      == Ok(map["key" := VStr("value")])
  {
    var args := map["key" := Decl(String, "k", false)];
    var values := ["-k", "value"];
    assert !HasPrefix(values[0], "--") by { assert values[0][1] != '-'; }
    assert values[0][1..] == "k";
    assert args["key"].shortcut == "k";
    assert FindByShortcut(args, "k") == Some("key");
    assert ScanStep(args, values, 0, map[], parseFloat) == Ok(Continue(2, map["key" := VStr("value")]));
  }

  lemma FlagCluster(parseFloat: FloatParser)
    ensures
      var args := map["flag" := Decl(Flag, "f", false), "bool" := Decl(Flag, "b", false)];
      Parse(args, ["-fb"], parseFloat) == Ok(map["flag" := VBool(true), "bool" := VBool(true)])
  {
    var args := map["flag" := Decl(Flag, "f", false), "bool" := Decl(Flag, "b", false)];
    var values := ["-fb"];
    assert !HasPrefix(values[0], "--") by { assert values[0][1] != '-'; }
    assert values[0][1..] == "fb";
    assert "b" != "f" by { assert "b"[0] != "f"[0]; }
    assert args["flag"].shortcut == "f" && args["bool"].shortcut == "b";
    assert ShortcutKey(args, 'f') == Some("flag");
    assert ShortcutKey(args, 'b') == Some("bool");
    assert "fb"[1..] == "b";
    assert Cluster(args, "fb", map[]) == Ok(map["flag" := VBool(true), "bool" := VBool(true)]);
  }

  lemma ClusterWithOption(parseFloat: FloatParser)
    ensures
      var args := map["key" := Decl(Flag, "k", false), "value" := Decl(String, "v", false)];
      Parse(args, ["-kv", "value"], parseFloat) == Err(MixedCluster("-v"))
  {
    var args := map["key" := Decl(Flag, "k", false), "value" := Decl(String, "v", false)];
    var values := ["-kv", "value"];
    assert !HasPrefix(values[0], "--") by { assert values[0][1] != '-'; }
    assert values[0][1..] == "kv";
    assert "k" != "v" by { assert "k"[0] != "v"[0]; }
    assert args["key"].shortcut == "k" && args["value"].shortcut == "v";
    assert ShortcutKey(args, 'k') == Some("key");
    assert ShortcutKey(args, 'v') == Some("value");
    assert "kv"[1..] == "v";
    assert Cluster(args, "kv", map[]) == Err(MixedCluster("-v"));
  }

  lemma UnknownShortcut(parseFloat: FloatParser)
    ensures Parse(map[], ["-k", "value"], parseFloat) == Err(UnknownFlag("-k"))
  {
    var values := ["-k", "value"];
    assert !HasPrefix(values[0], "--") by { assert values[0][1] != '-'; }
  }

  lemma PositionalTail(parseFloat: FloatParser)
    ensures Parse(map["tail" := Decl(Tail, "", false)], ["value1", "--value2"], parseFloat)
      == Ok(map["tail" := VStrs(["value1", "--value2"])])
  {
    var args := map["tail" := Decl(Tail, "", false)];
    var values := ["value1", "--value2"];
    assert args["tail"].kind == Tail;
    assert FindByType(args, Tail) == Some("tail");
    assert !HasPrefix(values[0], "-") by { assert values[0][0] != '-'; }
    assert values[0..] == values;
  }

  lemma ListThenString(parseFloat: FloatParser)
    ensures
      var args := map["strs" := Decl(Strings, "", false), "str" := Decl(String, "", false)];
      Parse(args, ["--strs", "value1", "-x", "--str", "value"], parseFloat)
        == Ok(map["strs" := VStrs(["value1", "-x"]), "str" := VStr("value")])
  {
    var values := ["--strs", "value1", "-x", "--str", "value"];
    assert values[0][2..] == "strs" && values[3][2..] == "str";
    assert !HasPrefix(values[1], "--") by { assert values[1][0] != '-'; }
    assert !HasPrefix(values[2], "--") by { assert values[2][1] != '-'; }
    ListRunUnique(values, 1, ["value1", "-x"]);
  }

  /** A configuration declaring the single option `argument`. */
  function OneOption(fields: map<Key, Untyped>): Untyped {
    UMap(map[KStr("argument") := UMap(fields)])
  }

  /** A one-option configuration decodes as its option does. */
  lemma CreateOneOption(fields: map<Key, Untyped>)
    ensures CreateArgument(UMap(fields)).Ok? ==>
      Create(OneOption(fields)) == Ok(map["argument" := CreateArgument(UMap(fields)).value])
    ensures CreateArgument(UMap(fields)).Err? ==>
      Create(OneOption(fields)) == Err(CreateArgument(UMap(fields)).error)
  {
    var entries := OneOption(fields).entries;
    assert entries.Keys == {KStr("argument")};
    var r := Create(OneOption(fields));
    if r.Ok? {
      SameMaps(r.value, map["argument" := CreateArgument(UMap(fields)).value]);
    }
  }

  lemma CreateTitle()
    ensures Create(OneOption(map[KStr("title") := UStr("TITLE"), KStr("type") := UStr("string")]))
      == Ok(map["argument" := Argument("TITLE", "", String, "", false, None)])
  {
    var fields := map[KStr("title") := UStr("TITLE"), KStr("type") := UStr("string")];
    assert fields.Keys == {KStr("title"), KStr("type")};
    assert KStr("description") !in fields && KStr("shortcut") !in fields && KStr("required") !in fields;
    assert ValidArgument(UMap(fields));
    assert CreateArgument(UMap(fields)) == Ok(Argument("TITLE", "", String, "", false, None));
    CreateOneOption(fields);
  }

  lemma CreateWithoutType()
    ensures Create(OneOption(map[])) == Err(TypeMissing)
  {
    CreateOneOption(map[]);
  }

  lemma CreateUnknownType()
    ensures Create(OneOption(map[KStr("type") := UStr("WRONG")])) == Err(UnknownType("WRONG"))
  {
    var fields := map[KStr("type") := UStr("WRONG")];
    assert fields.Keys == {KStr("type")};
    assert KStr("title") !in fields && KStr("description") !in fields;
    assert "WRONG" !in Types;
    assert CreateArgument(UMap(fields)) == Err(UnknownType("WRONG"));
    CreateOneOption(fields);
  }

  lemma CreateTitleCheckedFirst()
    ensures CreateArgument(UMap(map[KStr("title") := UBool(true)])) == Err(TitleNotString)
  {
  }
}

=== FILE: text.dfy ===
/** The string and number primitives the parser borrows from Go's standard
    library: `strings.HasPrefix`, `strconv.Atoi` (base 10, 64-bit `int`) and
    the result type of `strconv.ParseFloat`. */
module Text {
  import opened Results

  /** `strings.HasPrefix(s, prefix)`. */
  predicate HasPrefix(s: string, prefix: string) {
    |prefix| <= |s| && s[..|prefix|] == prefix
  }

  /** `"--" + name` starts with `"--no-"` exactly when `name` starts with `"no-"`. */
  lemma NegatedLongForm(name: string)
    ensures HasPrefix("--" + name, "--no-") <==> HasPrefix(name, "no-")
  {
    var t := "--" + name;
    if |name| >= 3 {
      assert t[..5] == "--" + name[..3];
      assert HasPrefix(t, "--no-") ==> name[..3] == t[..5][2..];
    }
  }

  // ---------------------------------------------------------------------
  // Base-10 integers (strconv.Atoi)
  // ---------------------------------------------------------------------

  /** Bounds of Go's `int` on a 64-bit platform. */
  const MinInt: int := -0x8000_0000_0000_0000
  const MaxInt: int := 0x7FFF_FFFF_FFFF_FFFF

  predicate InIntRange(n: int) {
    MinInt <= n <= MaxInt
  }

  predicate IsDigit(c: char) {
    '0' <= c <= '9'
  }

  predicate AllDigits(s: string) {
    forall i :: 0 <= i < |s| ==> IsDigit(s[i])
  }

  function DigitValue(c: char): (d: nat)
    requires IsDigit(c)
    ensures d < 10
  {
    c as int - '0' as int
  }

  function DigitChar(d: nat): (c: char)
    requires d < 10
    ensures IsDigit(c) && DigitValue(c) == d
  {
    ('0' as int + d) as char
  }

  /** The number a run of decimal digits denotes (0 for the empty run), most significant first. */
  function DigitsValue(s: string): nat
    requires AllDigits(s)
    decreases |s|
  {
    if s == [] then 0 else DigitsValue(s[..|s| - 1]) * 10 + DigitValue(s[|s| - 1])
  }

  /** Whether a token has Atoi's syntax: an optional sign followed by at least one digit. */
  predicate DecimalSyntax(s: string) {
    if |s| > 0 && (s[0] == '-' || s[0] == '+') then
      |s| > 1 && AllDigits(s[1..])
    else
      |s| > 0 && AllDigits(s)
  }

  /** The signed value of a token with decimal syntax. */
  function SignedValue(s: string): int
    requires DecimalSyntax(s)
  {
    if s[0] == '-' then -(DigitsValue(s[1..]) as int)
    else if s[0] == '+' then DigitsValue(s[1..])
    else DigitsValue(s)
  }

  /** `strconv.Atoi`: `None` for a syntax error and for a value outside the `int` range. */
  function ParseDecimal(s: string): (r: Option<int>)
    ensures r.Some? <==> DecimalSyntax(s) && InIntRange(SignedValue(s))
    ensures r.Some? ==> r.value == SignedValue(s) && InIntRange(r.value)
    ensures s == [] ==> r.None?
  {
    if |s| > 0 && (s[0] == '-' || s[0] == '+') then
      var body := s[1..];
      if |body| == 0 || !AllDigits(body) then None
      else
        var n := if s[0] == '-' then -(DigitsValue(body) as int) else DigitsValue(body);
        if InIntRange(n) then Some(n) else None
    else if |s| == 0 || !AllDigits(s) then None
    else if InIntRange(DigitsValue(s)) then Some(DigitsValue(s))
    else None
  }

  /** Decimal digits of a natural number, most significant first, no leading zeros. */
  function NatDigits(n: nat): (s: string)
    ensures |s| > 0 && AllDigits(s)
    decreases n
  {
    if n < 10 then [DigitChar(n)] else NatDigits(n / 10) + [DigitChar(n % 10)]
  }

  lemma {:induction false} NatDigitsValue(n: nat)
    ensures DigitsValue(NatDigits(n)) == n
    decreases n
  {
    var s := NatDigits(n);
    if n >= 10 {
      NatDigitsValue(n / 10);
      assert s[..|s| - 1] == NatDigits(n / 10);
    } else {
      assert s[..|s| - 1] == [];
    }
  }

  /** `strconv.Itoa`: the canonical decimal spelling of an integer. */
  function FormatDecimal(n: int): string {
    if n < 0 then "-" + NatDigits(-n) else NatDigits(n)
  }

  /** Atoi reads back what Itoa writes, for every value of Go's `int`. */
  lemma {:induction false} ParseFormatDecimal(n: int)
    requires InIntRange(n)
    ensures ParseDecimal(FormatDecimal(n)) == Some(n)
  {
    var s := FormatDecimal(n);
    if n < 0 {
      NatDigitsValue(-n);
      assert s[1..] == NatDigits(-n);
    } else {
      NatDigitsValue(n);
      assert IsDigit(s[0]);
    }
  }

  // ---------------------------------------------------------------------
  // Floating point (strconv.ParseFloat)
  // ---------------------------------------------------------------------

  /** An IEEE 754 binary64 value, identified by its bit pattern. */
  datatype Float64 = Float64(bits: bv64)

  /** The behaviour of `strconv.ParseFloat(s, 64)`: `None` when it reports an error. */
  type FloatParser = string -> Option<Float64>
}

=== FILE: untyped.dfy ===
/** Go's `interface{}` as it reaches the schema decoder: the untyped tree a
    configuration document decodes into. Keys of a mapping may be strings or
    anything else; values are strings, booleans, nested mappings, or some
    other value the decoder does not inspect. */
module Untyped {

  datatype Key = KStr(s: string) | KOther(tag: int)

  datatype Untyped =
    | UStr(s: string)
    | UBool(b: bool)
    | UMap(entries: map<Key, Untyped>)
    | UOther(tag: int)
}

=== FILE: values.dfy ===
/** The typed getters on a parse result (values.go). Each returns the value,
    whether the name was found, and an error when the stored value has
    another shape. A tag check replaces Go's type assertion, so no getter
    can fail other than by its error result. */
module Accessors {
  import opened Results
  import opened Text
  import opened Schema

  /** The error a getter reports for a value of the wrong shape. */
  datatype AccessError = TypeMismatch(key: string)

  /** A getter's three results. */
  datatype Got<T> = Got(value: T, found: bool, error: Option<AccessError>)

  /** `Values.Value`: plain lookup. */
  function ValueOf(vals: Values, key: string): (r: Option<Value>)
    ensures r.Some? <==> key in vals
    ensures r.Some? ==> r.value == vals[key]
  {
    if key in vals then Some(vals[key]) else None
  }

  /** `Values.String`. */
  function GetString(vals: Values, key: string, defaultValue: string): (r: Got<string>)
    ensures key !in vals ==> r == Got(defaultValue, false, None)
    ensures key in vals && vals[key].VStr? ==> r == Got(vals[key].text, true, None)
    ensures key in vals && !vals[key].VStr? ==> r == Got("", true, Some(TypeMismatch(key)))
  {
    match ValueOf(vals, key)
    case None => Got(defaultValue, false, None)
    case Some(VStr(s)) => Got(s, true, None)
    case Some(_) => Got("", true, Some(TypeMismatch(key)))
  }

  /** `Values.Strings`. Unlike the other getters, a value of the wrong shape
      yields the one-element list `[""]` and reports "not found". */
  function GetStrings(vals: Values, key: string, defaultValue: seq<string>): (r: Got<seq<string>>)
    ensures key !in vals ==> r == Got(defaultValue, false, None)
    ensures key in vals && vals[key].VStrs? ==> r == Got(vals[key].list, true, None)
    ensures key in vals && !vals[key].VStrs? ==> r == Got([""], false, Some(TypeMismatch(key)))
  {
    match ValueOf(vals, key)
    case None => Got(defaultValue, false, None)
    case Some(VStrs(xs)) => Got(xs, true, None)
    case Some(_) => Got([""], false, Some(TypeMismatch(key)))
  }

  /** `Values.Integer`. */
  function GetInteger(vals: Values, key: string, defaultValue: int): (r: Got<int>)
    ensures key !in vals ==> r == Got(defaultValue, false, None)
    ensures key in vals && vals[key].VInt? ==> r == Got(vals[key].number, true, None)
    ensures key in vals && !vals[key].VInt? ==> r == Got(0, true, Some(TypeMismatch(key)))
  {
    match ValueOf(vals, key)
    case None => Got(defaultValue, false, None)
    case Some(VInt(n)) => Got(n, true, None)
    case Some(_) => Got(0, true, Some(TypeMismatch(key)))
  }

  /** The float zero Go returns on a mismatch: +0.0, all bits clear. */
  const FloatZero: Float64 := Float64(0)

  /** `Values.Float`. */
  function GetFloat(vals: Values, key: string, defaultValue: Float64): (r: Got<Float64>)
    ensures key !in vals ==> r == Got(defaultValue, false, None)
    ensures key in vals && vals[key].VFloat? ==> r == Got(vals[key].float64, true, None)
    ensures key in vals && !vals[key].VFloat? ==> r == Got(FloatZero, true, Some(TypeMismatch(key)))
  {
    match ValueOf(vals, key)
    case None => Got(defaultValue, false, None)
    case Some(VFloat(f)) => Got(f, true, None)
    case Some(_) => Got(FloatZero, true, Some(TypeMismatch(key)))
  }

  /** `Values.Boolean`. */
  function GetBoolean(vals: Values, key: string, defaultValue: bool): (r: Got<bool>)
    ensures key !in vals ==> r == Got(defaultValue, false, None)
    ensures key in vals && vals[key].VBool? ==> r == Got(vals[key].truth, true, None)
    ensures key in vals && !vals[key].VBool? ==> r == Got(false, true, Some(TypeMismatch(key)))
  {
    match ValueOf(vals, key)
    case None => Got(defaultValue, false, None)
    case Some(VBool(b)) => Got(b, true, None)
    case Some(_) => Got(false, true, Some(TypeMismatch(key)))
  }

  /** The getters agree with `ValueOf`: an error-free "found" answer is the
      stored value under the getter's tag, and an error-free "not found"
      answer is the caller's default for a name with no value. */
  lemma GettersAgreeWithValue(vals: Values, key: string)
    ensures forall d :: var g := GetString(vals, key, d);
      (g.error.None? && g.found <==> ValueOf(vals, key) == Some(VStr(g.value)))
      && (g.error.None? && !g.found <==> ValueOf(vals, key).None? && g.value == d)
    ensures forall d :: var g := GetStrings(vals, key, d);
      (g.error.None? && g.found <==> ValueOf(vals, key) == Some(VStrs(g.value)))
      && (g.error.None? && !g.found <==> ValueOf(vals, key).None? && g.value == d)
    ensures forall d :: var g := GetInteger(vals, key, d);
      (g.error.None? && g.found <==> ValueOf(vals, key) == Some(VInt(g.value)))
      && (g.error.None? && !g.found <==> ValueOf(vals, key).None? && g.value == d)
    ensures forall d :: var g := GetFloat(vals, key, d);
      (g.error.None? && g.found <==> ValueOf(vals, key) == Some(VFloat(g.value)))
      && (g.error.None? && !g.found <==> ValueOf(vals, key).None? && g.value == d)
    ensures forall d :: var g := GetBoolean(vals, key, d);
      (g.error.None? && g.found <==> ValueOf(vals, key) == Some(VBool(g.value)))
      && (g.error.None? && !g.found <==> ValueOf(vals, key).None? && g.value == d)
  {
  }

  /** A getter reports a mismatch exactly when the name has a value of
      another shape. */
  lemma MismatchIffOtherShape(vals: Values, key: string)
    ensures forall d :: GetString(vals, key, d).error.Some? <==> key in vals && !Fits(String, vals[key])
    ensures forall d :: GetStrings(vals, key, d).error.Some? <==> key in vals && !Fits(Strings, vals[key])
    ensures forall d :: GetInteger(vals, key, d).error.Some? <==> key in vals && !Fits(Integer, vals[key])
    ensures forall d :: GetFloat(vals, key, d).error.Some? <==> key in vals && !Fits(Float, vals[key])
    ensures forall d :: GetBoolean(vals, key, d).error.Some? <==> key in vals && !Fits(Flag, vals[key])
  {
  }
}
